=== FILE: README.md ===
# Robust action execution of a recorded Playwright script

This project models the two helpers at the heart of a recorded browser-automation
script for realtor.ca:

- `_try_locate_and_act` performs a `click` or a `fill` on the first element that a
  selector matches.
  - When the original selector fails and it is an `xpath=` selector, the helper
    retries with shorter and shorter XPaths.
  - Each retry drops leading path segments and anchors what is left with `//`.
  - It makes at most 50 retries, and a failure raises a `PlaywrightActionError`.
- `replace_sensitive_data` replaces the `<secret>KEY</secret>` placeholders in a text
  with values taken from a sensitive-data dict.

How the model is built:

- **The browser is an oracle.** A `Driver` is a function from a driver call (click,
  clear or fill of a selector, with its timeout) to whether that call goes through.
- **The executor is a pure function.** `ActionExecutor.Execute` returns:
  - whether the call completed or which error it raised;
  - the attempts it made (index, selector and timeout);
  - the driver calls it issued.
- **It is checked against an independent plan.** `ActionExecutor.Plan` lists, as a
  sequence comprehension, every attempt the helper may make. `ExecuteMatchesPlan`
  proves that the recursive executor works through that plan: it stops at the first
  attempt that goes through and raises the plan's error when none does.
- **Python's `str` is modelled exactly where it matters.** Module `PyStrings` covers
  `startswith`, `split(sep)`, `split(c, 1)`, `join` and `replace`. `split` is pinned
  down by its leftmost cut, and `replace` is proved equal to `rep.join(s.split(pat))`.

Modules:

- `PyStrings`: the Python string operations above.
- `SensitiveData`: `replace_sensitive_data`.
- `Selectors`: XPath segments and fallback selectors.
- `ActionExecutor`: `_try_locate_and_act` and its plan.
- `ExecutorProperties`: what callers may rely on.
- `CorrectedExecutor`: the executor with the invalid-action case closed (see Findings).

Two behaviours of the code are worth stating up front:

- **The "failed unexpectedly" error is the usual way a failed XPath action ends.**
  The comment before it calls it unreachable. But when 50 or fewer segments all
  fail, `range(1, min(51, len(segments)))` simply runs out, and the call falls
  through to that error. The "after 50 fallback attempts" error is raised only
  when there are more than 50 segments, so that fallback 50 exists.
- **Substitution is not idempotent.** A replacement value may itself hold the tag
  of an earlier entry. That entry has already been applied, so the tag stays in
  the result and a second pass replaces it
  (`SensitiveData.SubstitutionIsNotIdempotent`). The tag of a later entry is
  resolved in the same pass (`SensitiveData.LaterEntryIsResolvedInOnePass`).
  A replacement can also join the text around it into a new tag, which a
  second pass would replace as well.

## Model

All source paths refer to `playwright_scripts/realtor_playwright_script.py`.

| member | source | states |
|---|---|---|
| PyStrings.SplitOnce | playwright_scripts/realtor_playwright_script.py:72 | `s.split(c, 1)` is `[s]` when `c` is absent. Otherwise it is two parts around the first `c`, which rebuild `s`. |
| PyStrings.IndexOf | playwright_scripts/realtor_playwright_script.py:72 | The position found holds `c`, and no earlier position does. |
| PyStrings.Split | playwright_scripts/realtor_playwright_script.py:79 | `s.split(sep)` always has at least one piece. What the pieces are is stated by `SplitFirstCut`, `JoinSplit` and `SplitPiecesAvoidPattern`. |
| PyStrings.Join | playwright_scripts/realtor_playwright_script.py:82 | `sep.join(parts)`. No contract of its own; its relation to `split` is stated by `JoinSplit` and `SplitJoin`. |
| PyStrings.StartsWith | playwright_scripts/realtor_playwright_script.py:66 | `s.startswith(prefix)`. No contract of its own; `Selectors.XPathExtraction` states what it gives for an `xpath=` selector. |
| PyStrings.SplitFirstCut | playwright_scripts/realtor_playwright_script.py:27 | The first piece of `s.split(sep)` is a prefix of `s` that contains no occurrence of `sep`. It is all of `s` when it is the only piece; otherwise `sep` follows it, and the other pieces are the split of the text after that occurrence. |
| PyStrings.SplitFirstCutLeftmost | playwright_scripts/realtor_playwright_script.py:27 | No occurrence of `sep` starts inside the first piece of `s.split(sep)`, so the cut is at the leftmost occurrence. |
| PyStrings.SplitPiecesAvoidPattern | playwright_scripts/realtor_playwright_script.py:27 | No piece of `s.split(pat)` contains `pat`, for any non-empty pattern. |
| PyStrings.JoinSplit | playwright_scripts/realtor_playwright_script.py:79 | Joining the pieces of `s.split(sep)` with `sep` gives back `s`. |
| PyStrings.SplitPiecesAvoidSeparator | playwright_scripts/realtor_playwright_script.py:79 | No piece of `s.split('/')` contains `/`. |
| PyStrings.SplitJoin | playwright_scripts/realtor_playwright_script.py:79-82 | Splitting `c.join(parts)` on `c` gives back `parts` when no part contains `c`. |
| PyStrings.NonEmpty | playwright_scripts/realtor_playwright_script.py:79 | The filter `[seg for seg in ... if seg]` keeps every non-empty member of its input and nothing else, and is never longer than its input. |
| PyStrings.NonEmptyKeepsAll | playwright_scripts/realtor_playwright_script.py:79 | The filter leaves a list of non-empty strings unchanged. |
| PyStrings.ReplaceAll | playwright_scripts/realtor_playwright_script.py:27 | `str.replace` leaves a text without the pattern unchanged. |
| PyStrings.ReplaceAllIsJoinOfSplit | playwright_scripts/realtor_playwright_script.py:27 | `s.replace(pat, rep)` equals `rep.join(s.split(pat))`. With `SplitFirstCut` and `SplitPiecesAvoidPattern`, every non-overlapping occurrence is replaced, from the left. |
| PyStrings.ReplaceAllAtLeftmost | playwright_scripts/realtor_playwright_script.py:27 | `s.replace(pat, rep)` replaces the leftmost occurrence of `pat`: no occurrence starts before it. It keeps the text before that occurrence and goes on with the text after it. A text without `pat` is unchanged. |
| Selectors.IsXPath | playwright_scripts/realtor_playwright_script.py:66 | Whether the selector starts with `xpath=`. No contract of its own; `Selectors.XPathExtraction` and `ExecutorProperties.NonXPathGetsNoFallback` state what follows from it. |
| Selectors.Segments | playwright_scripts/realtor_playwright_script.py:79 | Every XPath segment is non-empty and free of `/`. |
| Selectors.Candidate | playwright_scripts/realtor_playwright_script.py:82-83 | Fallback selector `i` is `xpath=//` + `'/'.join(segments[i:])`. No contract of its own; what it means is stated by `CandidateRoundTrip` and `TrimmingOrder`. |
| Selectors.XPathExtraction | playwright_scripts/realtor_playwright_script.py:72-77 | For an `xpath=` selector, `split('=', 1)` gives `xpath` and the text after the prefix. So the "could not extract" error cannot be raised. |
| Selectors.AnchoredSegments | playwright_scripts/realtor_playwright_script.py:79-83 | The segments of `//s1/.../sn` are exactly `s1 .. sn`, in order. |
| Selectors.CandidateRoundTrip | playwright_scripts/realtor_playwright_script.py:79-83 | Fallback selector `i` is an `xpath=` selector whose segments are exactly `segments[i:]`. |
| Selectors.TrimmingOrder | playwright_scripts/realtor_playwright_script.py:81-83 | A later fallback selector has strictly fewer segments than an earlier one, and they are the tail of the earlier one's. |
| SensitiveData.Tag | playwright_scripts/realtor_playwright_script.py:27 | The placeholder text `<secret>KEY</secret>`. No contract of its own; `SensitiveData.SubstitutionOfOneEntry` and `SensitiveData.CityPlaceholder` state how it is replaced. |
| SensitiveData.Replacement | playwright_scripts/realtor_playwright_script.py:26 | `str(value)`, or `''` for `None`. No contract of its own; `SensitiveData.SubstitutionOfOneEntry` and `SensitiveData.LoneTagIsReplaced` state where it ends up. |
| SensitiveData.ApplyEntries | playwright_scripts/realtor_playwright_script.py:25-27 | The loop over the entries leaves a text holding none of their tags unchanged. |
| SensitiveData.ReplaceSensitiveData | playwright_scripts/realtor_playwright_script.py:21-28 | A non-`str` argument is returned as it is. A `str` stays a `str`, and one without tags is unchanged. |
| SensitiveData.EmptyMapChangesNothing | playwright_scripts/realtor_playwright_script.py:23-28 | An empty map returns any text unchanged. |
| SensitiveData.SubstitutionInMapOrder | playwright_scripts/realtor_playwright_script.py:25-27 | Entries are applied in map order: the map `m1 + m2` acts as `m1` followed by `m2`. |
| SensitiveData.SubstitutionOfOneEntry | playwright_scripts/realtor_playwright_script.py:26-27 | One entry cuts the text into pieces that hold no `<secret>KEY</secret>` and that rebuild the text when joined with the tag. The result is the same pieces joined with `str(value)`, or with `''` for `None`: every tag is replaced, and nothing else changes. |
| SensitiveData.LoneTagIsReplaced | playwright_scripts/realtor_playwright_script.py:26-27 | A text that is exactly one tag becomes that entry's replacement. |
| SensitiveData.CityPlaceholder | playwright_scripts/realtor_playwright_script.py:27 | `<secret>CITY</secret>` with `{CITY: "Ottawa"}` becomes `Ottawa`. |
| SensitiveData.SubstitutionIsNotIdempotent | playwright_scripts/realtor_playwright_script.py:25-27 | A second pass can change the text again: one pass can leave a tag that the next pass replaces. |
| SensitiveData.LaterEntryIsResolvedInOnePass | playwright_scripts/realtor_playwright_script.py:25-27 | A tag brought in by a replacement value is replaced in the same pass when its entry comes later in the map, and a second pass then changes nothing. |
| ActionExecutor.Classify | playwright_scripts/realtor_playwright_script.py:52-58 | The action is a click exactly when `action_type == 'click'`. It is a fill with the text exactly when `action_type == 'fill'` and the text is not `None`. Anything else is invalid. |
| ActionExecutor.AttemptCalls | playwright_scripts/realtor_playwright_script.py:51-96 | Every call of an attempt is on the attempt's selector with its timeout. An invalid action issues none. Only a fallback fill clears. A valid attempt's last call is its click or fill, on the attempt's selector and timeout, with the fill's text. |
| ActionExecutor.AttemptOk | playwright_scripts/realtor_playwright_script.py:86-100 | A click or fill attempt succeeds exactly when its last driver call, the action itself, goes through. A clear before it decides nothing. |
| ActionExecutor.CallsOf | playwright_scripts/realtor_playwright_script.py:86-96 | The driver calls of a series of attempts, in order. No contract of its own; `ExecutorProperties.CallsOfCovers` and `CorrectedExecutor.LastCallIsTheAction` state what it holds. |
| ActionExecutor.RangeEnd | playwright_scripts/realtor_playwright_script.py:81 | The end `min(51, len(segments))` of the loop's range. No contract of its own; `ActionExecutor.FallbackCount` states how many iterations it allows. |
| ActionExecutor.FallbackCount | playwright_scripts/realtor_playwright_script.py:81 | `range(1, min(51, n))` runs `min(50, n - 1)` times when `n > 1` and never otherwise, and never more than 50 times. |
| ActionExecutor.Execute | playwright_scripts/realtor_playwright_script.py:38-110 | The first attempt is the original selector with the 10000 ms timeout. Every attempt but the last failed, and the call completes exactly when the last one went through. A selector that is not XPath gets one attempt. |
| ActionExecutor.Fallbacks | playwright_scripts/realtor_playwright_script.py:81-110 | The fallback loop from iteration `i`. No contract of its own; what it comes to is stated by `FallbacksFollowLoopPlan`. |
| ActionExecutor.FallbacksFollowLoopPlan | playwright_scripts/realtor_playwright_script.py:81-110 | The loop tries fallback `i, i+1, ...` in order with the 1000 ms timeout and stops at the first success. If every iteration fails it raises "after 50 fallback attempts" (more than 50 segments) or "failed unexpectedly" (otherwise). Its driver calls are exactly those of its attempts. |
| ActionExecutor.LoopPlan | playwright_scripts/realtor_playwright_script.py:81-89 | The loop's iterations from `i`, each with fallback selector `i` and the 1000 ms timeout. No contract of its own; `ActionExecutor.FallbacksFollowLoopPlan` ties the loop to it. |
| ActionExecutor.LoopFailure | playwright_scripts/realtor_playwright_script.py:103-110 | The error once every loop iteration failed: "after 50 fallback attempts" with more than 50 segments, "failed unexpectedly" otherwise. No contract of its own; `ActionExecutor.FallbacksFollowLoopPlan` and `ExecutorProperties.EveryFailureRaises` state when it is raised. |
| ActionExecutor.ExhaustionReason | playwright_scripts/realtor_playwright_script.py:66-110 | Which error a call raises when all its attempts fail: "non-XPath" for a selector without `xpath=`, otherwise as `LoopFailure`. No contract of its own; `ExecutorProperties.EveryFailureRaises` states it for every selector. |
| ActionExecutor.Plan | playwright_scripts/realtor_playwright_script.py:44-83 | The attempts the helper may make, written directly as a list: the original selector at 10000 ms, then fallback `j` at 1000 ms for `j = 1 .. min(50, len(segments) - 1)` on an `xpath=` selector. `ExecuteMatchesPlan` ties the executor to it. |
| ActionExecutor.XPathPlan | playwright_scripts/realtor_playwright_script.py:72-83 | The attempts planned for an `xpath=` selector are the original selector followed by every iteration of the loop. |
| ActionExecutor.PlannedFallback | playwright_scripts/realtor_playwright_script.py:81-89 | Planned attempt `j >= 1` exists only for an `xpath=` selector with more than `j` segments. It is fallback selector `j` with the 1000 ms timeout. |
| ActionExecutor.ExecuteMatchesPlan | playwright_scripts/realtor_playwright_script.py:38-110 | The executor makes the planned attempts, up to and including the first that goes through. It completes exactly then, raises the selector's exhaustion error when all fail, and issues exactly the attempts' driver calls. |
| ActionExecutor.FallbackPath | playwright_scripts/realtor_playwright_script.py:62-81 | After the original selector fails, an `xpath=` selector runs the loop from `i = 1` on the segments after the prefix. |
| ExecutorProperties.NonXPathGetsNoFallback | playwright_scripts/realtor_playwright_script.py:50-70 | A selector that is not XPath gets exactly one attempt and never names another selector. It raises the "non-XPath" error exactly when that attempt fails. |
| ExecutorProperties.FallbackSelectorsAreTrimmed | playwright_scripts/realtor_playwright_script.py:79-89 | Attempt `j >= 1` is `xpath=//` + `'/'.join(segments[j:])` with a 1000 ms timeout. Its segments are `segments[j:]`: leading segments are dropped, the rest keep their order. |
| ExecutorProperties.AttemptBound | playwright_scripts/realtor_playwright_script.py:45-81 | At most `1 + min(50, len(segments) - 1)` attempts are made, and exactly that many when the call raises. |
| ExecutorProperties.FirstSuccessEndsTheCall | playwright_scripts/realtor_playwright_script.py:59-61 | If planned attempt `k` is the first to go through, the call completes after exactly attempts `0 .. k`. |
| ExecutorProperties.SecondAttemptCompletes | playwright_scripts/realtor_playwright_script.py:81-100 | When the original selector fails and fallback selector 1 works, the call completes after exactly those two attempts. |
| ExecutorProperties.StopsAtFirstSuccess | playwright_scripts/realtor_playwright_script.py:98-100 | A run through a plan stops at the plan's first successful attempt. |
| ExecutorProperties.EveryFailureRaises | playwright_scripts/realtor_playwright_script.py:66-110 | When every planned attempt fails, the call raises after trying them all. The error is "non-XPath" exactly for non-XPath selectors, and "after 50 fallback attempts" exactly when there are more than 50 segments. |
| ExecutorProperties.OnlyReachableErrorsEscape | playwright_scripts/realtor_playwright_script.py:58-77 | The "could not extract" and "invalid action" errors never leave the helper. Any error raised names the original selector. |
| ExecutorProperties.FallbacksIgnoreClear | playwright_scripts/realtor_playwright_script.py:86-102 | Two browsers that agree on every attempt's outcome run the fallback loop identically. |
| ExecutorProperties.ClearOutcomeIsIgnored | playwright_scripts/realtor_playwright_script.py:91-96 | A failing `clear` is swallowed: browsers that differ only in how `clear` behaves give the same result, attempts and calls. |
| ExecutorProperties.CallsOfCovers | playwright_scripts/realtor_playwright_script.py:86-96 | Every driver call of any attempt appears among the calls issued. |
| ExecutorProperties.FillFallbackClearsThenFills | playwright_scripts/realtor_playwright_script.py:90-96 | In a fill, each fallback selector is cleared and filled with 1000 ms timeouts, and the attempt succeeds exactly when the fill goes through. |
| ExecutorProperties.InvalidActionCompletesWithoutActing | playwright_scripts/realtor_playwright_script.py:52-100 | An invalid action issues no driver call. It completes, after two attempts, exactly on an `xpath=` selector with at least two segments. |
| ExecutorProperties.FourSegments | playwright_scripts/realtor_playwright_script.py:79-83 | `xpath=//a/b/c/d` has segments `a, b, c, d`, and its first fallback selector is `xpath=//b/c/d`. |
| ExecutorProperties.FirstTrimSucceedsScenario | playwright_scripts/realtor_playwright_script.py:81-100 | A browser that only accepts a click on `xpath=//b/c/d` gives a completed call after two attempts. |
| ExecutorProperties.AllTrimsFailScenario | playwright_scripts/realtor_playwright_script.py:81-110 | A browser that accepts nothing on `xpath=//a/b/c/d` gives four attempts and then the "failed unexpectedly" error. |
| ExecutorProperties.FillWithoutTextCompletesWithoutActing | playwright_scripts/realtor_playwright_script.py:54-100 | `fill` with `text=None` on `xpath=//a/b` completes without any click, clear or fill, whatever the browser answers to those calls. |
| CorrectedExecutor.LastCallIsTheAction | playwright_scripts/realtor_playwright_script.py:88-96 | For a click or fill, the last driver call of a series of attempts is the last attempt's action call. |
| CorrectedExecutor.RunActs | playwright_scripts/realtor_playwright_script.py:86-100 | A valid action's run through a plan that completes has performed its action: the last driver call is a click or fill, and it went through. A run that raises raises the plan's error. |
| CorrectedExecutor.ValidActionOutcome | playwright_scripts/realtor_playwright_script.py:38-110 | For a click or fill, a call that completes has performed the action and that call went through, and the "invalid action" error is never raised. |
| CorrectedExecutor.ExecuteChecked | playwright_scripts/realtor_playwright_script.py:52-58 | The "invalid action" error is raised exactly for invalid actions. A completed call has performed its click or fill, and that call went through. Valid actions behave as in the original. A rejected call logs no attempt and issues no driver call. |

## Left out

- The `asyncio` machinery is left out. Timeouts are kept only as the values passed to the driver.
- The `print` diagnostics are left out, and are assumed to return. The prints after a successful action (lines 59 and 98) run inside the same `try`. A print that raises, for example a `UnicodeEncodeError` when stdout cannot encode the message, would turn an action that went through into a failed attempt, and the helper would try again. The model does not cover that case.
- For an invalid action the 500 ms pause at line 99 is assumed to return, so the first fallback attempt succeeds. In the model that attempt issues no driver call at all, so `ExecutorProperties.FillWithoutTextCompletesWithoutActing` and `ExecutorProperties.InvalidActionCompletesWithoutActing` hold whatever the browser answers to click, clear or fill calls; the pause itself is not an oracle call.
- The `page.wait_for_timeout` pauses are not separate calls. The 500 ms pause after an action (lines 60 and 99) runs inside the same `try`, so a pause that raises makes an action that went through count as failed, and the helper tries again. The model folds this into the oracle: `true` for a click or fill means the action and the pause after it both returned. The same holds for a clear and the 100 ms pause after it (line 93). So the model cannot say "the action happened but the attempt failed"; it only sees the attempt's outcome.
- Real locator resolution and DOM matching are left out. `page.locator(...).first` is lazy, and a missing element shows up as a failing action call, so the oracle's answer stands for it.
- The browser is assumed stateless: a call's outcome depends only on the call. A page that changes between attempts is not modelled.
- A failing `clear` is modelled by the oracle's answer to the clear call, which the executor never consults.
- PyStrings.NonEmpty: its contract states membership both ways and the length bound, not the order kept; order is used only through `NonEmptyKeepsAll`, for lists without empty strings.
- Exceptions raised by `str()` on a sensitive value are left out. The dict's values are modelled by their string forms.
- `run_generated_script` (the recorded steps, browser launch, `.env` loading) is left out: it is I/O driving these helpers with fixed arguments.
- `realtor.py` and `examples/realtor.py` (the agent that records such scripts) are not part of this model.
- Python exception types other than `PlaywrightActionError` are left out. Any exception from the driver is the oracle answering `false`.

## Findings

| source | as written | input that shows it | evidently intended | confidence | as-written member | corrected member |
|---|---|---|---|---|---|---|
| playwright_scripts/realtor_playwright_script.py:52-58 | The "invalid action" error is raised inside the `try` and caught. The fallback loop then has no action branch, so the first fallback selector "succeeds" without any click or fill. | `action_type="fill"`, `text=None`, `selector="xpath=//a/b"` (`ExecutorProperties.FillWithoutTextCompletesWithoutActing`) | An invalid action raises the "invalid action" error, and a completed call has performed its action | not executed; follows from the control flow | ExecutorProperties.InvalidActionCompletesWithoutActing | CorrectedExecutor.ExecuteChecked |

=== FILE: action_executor.dfy ===
/**
 The robust action executor of the replay script (`_try_locate_and_act`):
 a click or fill on a selector, and, when that fails on an `xpath=`
 selector, a bounded series of retries on ever shorter selectors that match
 the trailing segments anywhere below the root.

 The browser is an oracle: a `Driver` says of every call it receives whether
 it goes through or raises. The executor is a pure function that returns the
 outcome (completed, or the `PlaywrightActionError` it raises) together with
 the log of attempts made and of driver calls issued.
 */
module ActionExecutor {
  import opened PyStrings
  import opened Selectors

  /** `MAX_FALLBACKS`: at most this many shortened selectors are tried. */
  const MaxFallbacks: nat := 50
  /** `INITIAL_TIMEOUT`, in milliseconds, for the attempt on the original selector. */
  const InitialTimeout: nat := 10000
  /** `FALLBACK_TIMEOUT`, in milliseconds, for each fallback attempt. */
  const FallbackTimeout: nat := 1000

  function Min(a: int, b: int): int {
    if a <= b then a else b
  }

  /** What the `action_type`/`text` pair asks for. Anything other than
      `click`, or `fill` with a text that is not `None`, is `Invalid`. */
  datatype ActionKind = Click | Fill(text: string) | Invalid

  /** The dispatch of the action branches: `click` whatever the text, `fill`
      with the text when there is one, and nothing else. */
  function Classify(actionType: string, text: Option<string>): (k: ActionKind)
    ensures (k == Click) == (actionType == "click")
    ensures k.Fill? == (actionType == "fill" && text.Some?)
    ensures k.Fill? ==> k.text == text.value
  {
    if actionType == "click" then Click
    else if actionType == "fill" && text.Some? then Fill(text.value)
    else Invalid
  }

  /** A call into the browser driver on the first element a selector matches. */
  datatype Call =
    | ClickCall(selector: string, timeout: nat)
    | ClearCall(selector: string, timeout: nat)
    | FillCall(selector: string, text: string, timeout: nat)

  /** The browser: whether a call goes through (`true`) or raises (`false`).
      The pause that follows a call inside the same `try` is part of its
      answer: `true` for a click or fill means the call and the 500 ms wait
      after the action both returned, and `true` for a clear means the clear
      and the 100 ms wait after it both returned. */
  type Driver = Call -> bool

  /** One try of the action: `index` 0 is the original selector, `index`
      `i >= 1` is fallback attempt `i`. */
  datatype Attempt = Attempt(index: nat, selector: string, timeout: nat)

  /** The driver calls one attempt issues. A fallback fill clears the field
      first; an invalid action issues none. */
  function AttemptCalls(kind: ActionKind, a: Attempt): (calls: seq<Call>)
    ensures forall k :: 0 <= k < |calls| ==> calls[k].selector == a.selector && calls[k].timeout == a.timeout
    ensures (calls == []) == (kind == Invalid)
    ensures (exists k :: 0 <= k < |calls| && calls[k].ClearCall?) == (kind.Fill? && a.index != 0)
    ensures kind != Invalid ==> !calls[|calls| - 1].ClearCall?
    ensures kind == Click ==> calls[|calls| - 1] == ClickCall(a.selector, a.timeout)
    ensures kind.Fill? ==> calls[|calls| - 1] == FillCall(a.selector, kind.text, a.timeout)
  {
    match kind
    case Click => [ClickCall(a.selector, a.timeout)]
    case Fill(t) =>
      if a.index == 0 then [FillCall(a.selector, t, a.timeout)]
      else
        var calls := [ClearCall(a.selector, a.timeout), FillCall(a.selector, t, a.timeout)];
        assert calls[0].ClearCall?;
        calls
    case Invalid => []
  }

  /** Whether an attempt ends without an exception. A click or fill attempt
      succeeds exactly when its click or fill call does; a failing clear is
      swallowed and never decides anything. An invalid action raises on the
      original selector, but on a fallback selector no action branch runs,
      so nothing raises. */
  predicate AttemptOk(d: Driver, kind: ActionKind, a: Attempt)
    ensures kind != Invalid ==>
              (AttemptOk(d, kind, a) == d(AttemptCalls(kind, a)[|AttemptCalls(kind, a)| - 1]))
  {
    match kind
    case Click => d(ClickCall(a.selector, a.timeout))
    case Fill(t) => d(FillCall(a.selector, t, a.timeout))
    case Invalid => a.index != 0
  }

  /** The driver calls a series of attempts issues, in order. */
  function CallsOf(kind: ActionKind, attempts: seq<Attempt>): seq<Call> {
    if |attempts| == 0 then []
    else AttemptCalls(kind, attempts[0]) + CallsOf(kind, attempts[1..])
  }

  /** Which of the executor's `PlaywrightActionError` messages is raised. */
  datatype ErrorReason =
    | InvalidAction        // "Invalid action_type ... or missing text for fill"
    | NotXPathSelector     // "Fallback not possible for non-XPath selector"
    | XPathNotExtracted    // "Could not extract XPath string from selector"
    | AfterMaxFallbacks    // "failed after 50 fallback attempts"
    | FailedUnexpectedly   // "failed unexpectedly"

  datatype PlaywrightActionError =
    PlaywrightActionError(reason: ErrorReason, actionType: string, selector: string, stepInfo: string)

  datatype Status = Completed | Raised(error: PlaywrightActionError)

  /** What a call of the executor comes to: its status, the attempts made and
      the driver calls issued. */
  datatype Outcome = Outcome(status: Status, attempts: seq<Attempt>, calls: seq<Call>)

  /** The end of `range(1, min(MAX_FALLBACKS + 1, len(segments)))`. */
  function RangeEnd(segs: seq<string>): nat {
    Min(MaxFallbacks + 1, |segs|)
  }

  /** The number of loop iterations still ahead when the loop is at `i`. */
  function Remaining(segs: seq<string>, i: nat): nat {
    if i < RangeEnd(segs) then RangeEnd(segs) - i else 0
  }

  /** The number of fallback attempts the loop allows for `segmentCount`
      segments: none for at most one segment, otherwise one per segment that
      can be dropped while keeping one, and never more than `MaxFallbacks`. */
  function FallbackCount(segmentCount: nat): (n: nat)
    ensures n <= MaxFallbacks
    ensures n == if segmentCount <= 1 then 0 else Min(MaxFallbacks, segmentCount - 1)
  {
    var hi := Min(MaxFallbacks + 1, segmentCount);
    if hi <= 1 then 0 else hi - 1
  }

  /** The fallback loop from iteration `i` on. An attempt that succeeds ends
      the loop; a failure at `i == MaxFallbacks` raises the "after 50
      fallback attempts" error; a loop that runs out of segments falls
      through to the "failed unexpectedly" error after it. What it comes to
      is stated by `FallbacksFollowLoopPlan`. */
  function Fallbacks(d: Driver, kind: ActionKind, segs: seq<string>, i: nat,
                     actionType: string, original: string, stepInfo: string): Outcome
    requires 1 <= i <= MaxFallbacks
    decreases |segs| - i
  {
    if i >= RangeEnd(segs) then
      Outcome(Raised(PlaywrightActionError(FailedUnexpectedly, actionType, original, stepInfo)), [], [])
    else
      var a := Attempt(i, Candidate(segs, i), FallbackTimeout);
      if AttemptOk(d, kind, a) then
        Outcome(Completed, [a], AttemptCalls(kind, a))
      else if i == MaxFallbacks then
        Outcome(Raised(PlaywrightActionError(AfterMaxFallbacks, actionType, original, stepInfo)), [a], AttemptCalls(kind, a))
      else
        var rest := Fallbacks(d, kind, segs, i + 1, actionType, original, stepInfo);
        Outcome(rest.status, [a] + rest.attempts, AttemptCalls(kind, a) + rest.calls)
  }

  /** `_try_locate_and_act(page, selector, action_type, text, step_info)`.
      The attempt on the original selector comes first; the attempts that
      fail are all but the last one, and the call completes exactly when the
      last one succeeds. A selector that is not XPath gets no other attempt.
      `ExecuteMatchesPlan` states the rest. */
  function Execute(d: Driver, selector: string, actionType: string, text: Option<string>,
                   stepInfo: string): (o: Outcome)
    ensures |o.attempts| >= 1 && o.attempts[0] == Attempt(0, selector, InitialTimeout)
    ensures forall j :: 0 <= j < |o.attempts| - 1 ==> !AttemptOk(d, Classify(actionType, text), o.attempts[j])
    ensures o.status.Completed? <==> AttemptOk(d, Classify(actionType, text), o.attempts[|o.attempts| - 1])
    ensures !IsXPath(selector) ==> |o.attempts| == 1
  {
    var kind := Classify(actionType, text);
    var first := Attempt(0, selector, InitialTimeout);
    if AttemptOk(d, kind, first) then
      Outcome(Completed, [first], AttemptCalls(kind, first))
    else if !StartsWith(selector, XPathPrefix) then
      Outcome(Raised(PlaywrightActionError(NotXPathSelector, actionType, selector, stepInfo)),
              [first], AttemptCalls(kind, first))
    else
      var parts := SplitOnce(selector, '=');
      if |parts| < 2 then
        Outcome(Raised(PlaywrightActionError(XPathNotExtracted, actionType, selector, stepInfo)),
                [first], AttemptCalls(kind, first))
      else
        var segs := Segments(parts[1]);
        var rest := Fallbacks(d, kind, segs, 1, actionType, selector, stepInfo);
        FallbacksFollowLoopPlan(d, kind, segs, 1, actionType, selector, stepInfo);
        PrependFailedAttempt(d, kind, [first] + LoopPlan(segs, 1), rest, LoopFailure(segs, actionType, selector, stepInfo));
        Outcome(rest.status, [first] + rest.attempts, AttemptCalls(kind, first) + rest.calls)
  }

  /** The attempts the executor may make on `selector`, in order, written
      down directly: the original selector, then, for an `xpath=` selector,
      fallback selector `i` for `i = 1 .. FallbackCount`. */
  function Plan(selector: string): (p: seq<Attempt>)
    ensures |p| >= 1
  {
    var first := Attempt(0, selector, InitialTimeout);
    if !IsXPath(selector) then [first]
    else
      var segs := Segments(selector[|XPathPrefix|..]);
      var n := FallbackCount(|segs|);
      [first] + seq(n, j requires 0 <= j < n => Attempt(j + 1, Candidate(segs, j + 1), FallbackTimeout))
  }

  /** The error raised once every planned attempt has failed. */
  function ExhaustionReason(selector: string): ErrorReason {
    if !IsXPath(selector) then NotXPathSelector
    else if |Segments(selector[|XPathPrefix|..])| > MaxFallbacks then AfterMaxFallbacks
    else FailedUnexpectedly
  }

  /** The iterations of the fallback loop from `i` on. */
  function LoopPlan(segs: seq<string>, i: nat): seq<Attempt> {
    seq(Remaining(segs, i), j requires 0 <= j < Remaining(segs, i) =>
      Attempt(i + j, Candidate(segs, i + j), FallbackTimeout))
  }

  /** The error the fallback loop raises once every iteration has failed. */
  function LoopFailure(segs: seq<string>, actionType: string, original: string, stepInfo: string): PlaywrightActionError {
    PlaywrightActionError(if |segs| > MaxFallbacks then AfterMaxFallbacks else FailedUnexpectedly,
                          actionType, original, stepInfo)
  }

  /** `o` is what a run through `plan` must come to: the plan up to and
      including the first attempt that succeeds, or the whole plan when none
      does, completing exactly when one succeeds, raising `failure`
      otherwise, and issuing exactly the attempts' driver calls. */
  predicate RunsThrough(o: Outcome, d: Driver, kind: ActionKind, plan: seq<Attempt>,
                        failure: PlaywrightActionError)
  {
    && |o.attempts| <= |plan|
    && o.attempts == plan[..|o.attempts|]
    && o.calls == CallsOf(kind, o.attempts)
    && (forall j :: 0 <= j < |o.attempts| - 1 ==> !AttemptOk(d, kind, o.attempts[j]))
    && (o.status.Completed? <==> |o.attempts| > 0 && AttemptOk(d, kind, o.attempts[|o.attempts| - 1]))
    && (o.status.Raised? ==> o.attempts == plan && o.status.error == failure)
  }

  lemma CallsOfCons(kind: ActionKind, a: Attempt, rest: seq<Attempt>)
    ensures CallsOf(kind, [a] + rest) == AttemptCalls(kind, a) + CallsOf(kind, rest)
  {
    assert ([a] + rest)[1..] == rest;
  }

  /** A failed first attempt followed by a run through the rest of the plan
      is a run through the whole plan. */
  lemma PrependFailedAttempt(d: Driver, kind: ActionKind, plan: seq<Attempt>, rest: Outcome,
                             failure: PlaywrightActionError)
    requires |plan| >= 1 && !AttemptOk(d, kind, plan[0])
    requires RunsThrough(rest, d, kind, plan[1..], failure)
    ensures RunsThrough(Outcome(rest.status, [plan[0]] + rest.attempts, AttemptCalls(kind, plan[0]) + rest.calls),
                        d, kind, plan, failure)
  {
    var o := Outcome(rest.status, [plan[0]] + rest.attempts, AttemptCalls(kind, plan[0]) + rest.calls);
    forall j | 0 <= j < |o.attempts|
      ensures o.attempts[j] == plan[j]
    {
      if j > 0 {
        assert o.attempts[j] == rest.attempts[j - 1];
      }
    }
    assert o.attempts == plan[..|o.attempts|];
    CallsOfCons(kind, plan[0], rest.attempts);
    forall j | 0 <= j < |o.attempts| - 1
      ensures !AttemptOk(d, kind, o.attempts[j])
    {
      if j > 0 {
        assert o.attempts[j] == rest.attempts[j - 1];
      }
    }
    if o.status.Raised? {
      assert plan == [plan[0]] + plan[1..];
    }
  }

  /** While the loop has iterations left, its plan starts with iteration `i`
      and continues with the plan from `i + 1`. */
  lemma LoopPlanStep(segs: seq<string>, i: nat)
    requires i < RangeEnd(segs)
    ensures |LoopPlan(segs, i)| >= 1
    ensures LoopPlan(segs, i)[0] == Attempt(i, Candidate(segs, i), FallbackTimeout)
    ensures LoopPlan(segs, i + 1) == LoopPlan(segs, i)[1..]
  {
  }

  /** A single attempt that ends the run, by succeeding or by raising with
      nothing of the plan left, is a run through the plan. */
  lemma SingleAttemptRun(d: Driver, kind: ActionKind, plan: seq<Attempt>, status: Status,
                         failure: PlaywrightActionError)
    requires |plan| >= 1
    requires status.Completed? <==> AttemptOk(d, kind, plan[0])
    requires status.Raised? ==> plan == [plan[0]] && status.error == failure
    ensures RunsThrough(Outcome(status, [plan[0]], AttemptCalls(kind, plan[0])), d, kind, plan, failure)
  {
    CallsOfCons(kind, plan[0], []);
    assert [plan[0]] == plan[..1];
  }

  /** The fallback loop from `i` runs through its iterations: it stops at the
      first fallback selector that works, and raises the loop's error when
      none does. */
  lemma {:induction false} FallbacksFollowLoopPlan(d: Driver, kind: ActionKind, segs: seq<string>, i: nat,
                                                   actionType: string, original: string, stepInfo: string)
    requires 1 <= i <= MaxFallbacks
    ensures RunsThrough(Fallbacks(d, kind, segs, i, actionType, original, stepInfo), d, kind,
                        LoopPlan(segs, i), LoopFailure(segs, actionType, original, stepInfo))
    decreases |segs| - i
  {
    var plan := LoopPlan(segs, i);
    var failure := LoopFailure(segs, actionType, original, stepInfo);
    if i < RangeEnd(segs) {
      LoopPlanStep(segs, i);
      var a := plan[0];
      if AttemptOk(d, kind, a) {
        SingleAttemptRun(d, kind, plan, Completed, failure);
      } else if i == MaxFallbacks {
        assert plan == [a];
        SingleAttemptRun(d, kind, plan, Raised(failure), failure);
      } else {
        FallbacksFollowLoopPlan(d, kind, segs, i + 1, actionType, original, stepInfo);
        PrependFailedAttempt(d, kind, plan, Fallbacks(d, kind, segs, i + 1, actionType, original, stepInfo), failure);
      }
    }
  }

  /** The plan of an `xpath=` selector is the original attempt followed by
      every iteration of the fallback loop. */
  lemma XPathPlan(selector: string)
    requires IsXPath(selector)
    ensures var segs := Segments(selector[|XPathPrefix|..]);
            Plan(selector) == [Attempt(0, selector, InitialTimeout)] + LoopPlan(segs, 1)
  {
    var segs := Segments(selector[|XPathPrefix|..]);
    assert FallbackCount(|segs|) == Remaining(segs, 1);
  }

  /** Planned attempt `j >= 1` exists only for an `xpath=` selector, and it is
      fallback selector `j` with the fallback timeout. */
  lemma PlannedFallback(selector: string, j: nat)
    requires 1 <= j < |Plan(selector)|
    ensures IsXPath(selector) && j < |Segments(selector[|XPathPrefix|..])|
    ensures Plan(selector)[j] == Attempt(j, Candidate(Segments(selector[|XPathPrefix|..]), j), FallbackTimeout)
  {
    assert IsXPath(selector);
  }

  /** `o` is what an executor that works through `plan` must return, with at
      least one attempt made. */
  predicate FollowsPlan(o: Outcome, d: Driver, kind: ActionKind, plan: seq<Attempt>,
                        failure: PlaywrightActionError)
  {
    |o.attempts| >= 1 && RunsThrough(o, d, kind, plan, failure)
  }

  /** The executor against its plan: it makes the planned attempts up to and
      including the first that succeeds, completes exactly when one does,
      and otherwise makes them all and raises the error `ExhaustionReason`
      names for the selector; its driver calls are exactly the attempts'. */
  lemma ExecuteMatchesPlan(d: Driver, selector: string, actionType: string, text: Option<string>,
                           stepInfo: string)
    ensures FollowsPlan(Execute(d, selector, actionType, text, stepInfo), d, Classify(actionType, text),
                        Plan(selector),
                        PlaywrightActionError(ExhaustionReason(selector), actionType, selector, stepInfo))
  {
    var kind := Classify(actionType, text);
    var first := Attempt(0, selector, InitialTimeout);
    if AttemptOk(d, kind, first) || !IsXPath(selector) {
      CallsOfCons(kind, first, []);
    } else {
      XPathExtraction(selector);
      XPathPlan(selector);
      var segs := Segments(selector[|XPathPrefix|..]);
      FallbacksFollowLoopPlan(d, kind, segs, 1, actionType, selector, stepInfo);
      PrependFailedAttempt(d, kind, Plan(selector), Fallbacks(d, kind, segs, 1, actionType, selector, stepInfo),
                           PlaywrightActionError(ExhaustionReason(selector), actionType, selector, stepInfo));
    }
  }

  /** Once the original selector has failed, an `xpath=` selector runs the
      fallback loop on the segments of the text after the prefix. */
  lemma FallbackPath(d: Driver, selector: string, actionType: string, text: Option<string>,
                     stepInfo: string)
    requires IsXPath(selector)
    requires !AttemptOk(d, Classify(actionType, text), Attempt(0, selector, InitialTimeout))
    ensures var kind := Classify(actionType, text);
            var first := Attempt(0, selector, InitialTimeout);
            var rest := Fallbacks(d, kind, Segments(selector[|XPathPrefix|..]), 1, actionType, selector, stepInfo);
            Execute(d, selector, actionType, text, stepInfo)
              == Outcome(rest.status, [first] + rest.attempts, AttemptCalls(kind, first) + rest.calls)
  {
    XPathExtraction(selector);
  }
}

=== FILE: corrected_executor.dfy ===
/**
 The executor with its invalid-action case closed. As written, an action
 that is neither `click` nor `fill` with a text raises inside the `try` and is
 caught; the fallback loop then runs no action branch, so the first fallback
 selector "succeeds" without any click or fill. The raise is evidently meant
 to reject such a call, and `ExecuteChecked` does that up front; on every
 valid action it is `Execute` unchanged.
 */
module CorrectedExecutor {
  import opened PyStrings
  import opened ActionExecutor

  /** The driver call that performs a valid action on an attempt's selector. */
  function ActionCall(kind: ActionKind, a: Attempt): Call
    requires kind != Invalid
  {
    match kind
    case Click => ClickCall(a.selector, a.timeout)
    case Fill(t) => FillCall(a.selector, t, a.timeout)
  }

  /** For a valid action the last driver call of a series of attempts is the
      action of the last attempt. */
  lemma {:induction false} LastCallIsTheAction(kind: ActionKind, attempts: seq<Attempt>)
    requires kind != Invalid && |attempts| > 0
    ensures var calls := CallsOf(kind, attempts);
            |calls| > 0 && calls[|calls| - 1] == ActionCall(kind, attempts[|attempts| - 1])
  {
    var head := AttemptCalls(kind, attempts[0]);
    assert |head| > 0 && head[|head| - 1] == ActionCall(kind, attempts[0]);
    if |attempts| == 1 {
      assert CallsOf(kind, attempts) == head + CallsOf(kind, []);
    } else {
      LastCallIsTheAction(kind, attempts[1..]);
      assert CallsOf(kind, attempts) == head + CallsOf(kind, attempts[1..]);
    }
  }

  /** A run of a valid action through a plan that completes has performed
      the action: its last driver call is the click or fill of its last
      attempt, and that call went through. A run that raises raises the
      plan's error. */
  lemma RunActs(o: Outcome, d: Driver, kind: ActionKind, plan: seq<Attempt>, failure: PlaywrightActionError)
    requires kind != Invalid && FollowsPlan(o, d, kind, plan, failure)
    ensures o.status.Completed? ==>
              |o.calls| > 0 && !o.calls[|o.calls| - 1].ClearCall? && d(o.calls[|o.calls| - 1])
    ensures o.status.Raised? ==> o.status.error == failure
  {
    if o.status.Completed? {
      LastCallIsTheAction(kind, o.attempts);
    }
  }

  /** For a valid action, a call of `Execute` that completes has performed
      the action, and no call raises the "invalid action" error. */
  lemma ValidActionOutcome(d: Driver, selector: string, actionType: string, text: Option<string>,
                           stepInfo: string)
    requires Classify(actionType, text) != Invalid
    ensures var o := Execute(d, selector, actionType, text, stepInfo);
            && (o.status.Completed? ==>
                  |o.calls| > 0 && !o.calls[|o.calls| - 1].ClearCall? && d(o.calls[|o.calls| - 1]))
            && o.status != Raised(PlaywrightActionError(InvalidAction, actionType, selector, stepInfo))
  {
    var o := Execute(d, selector, actionType, text, stepInfo);
    var failure := PlaywrightActionError(ExhaustionReason(selector), actionType, selector, stepInfo);
    ExecuteMatchesPlan(d, selector, actionType, text, stepInfo);
    RunActs(o, d, Classify(actionType, text), Plan(selector), failure);
  }

  /** `_try_locate_and_act` raising its "invalid action" error for an invalid
      action instead of falling back. The error is raised before any selector
      is tried, so no attempt is logged. A call that completes has performed the
      action: its last driver call is a click or fill, and it went through.
      The "invalid action" error is raised exactly for invalid actions, and a
      valid action behaves as in `Execute`. */
  function ExecuteChecked(d: Driver, selector: string, actionType: string, text: Option<string>,
                          stepInfo: string): (o: Outcome)
    ensures o.status.Completed? ==>
              |o.calls| > 0 && !o.calls[|o.calls| - 1].ClearCall? && d(o.calls[|o.calls| - 1])
    ensures (Classify(actionType, text) == Invalid) == (o.status == Raised(PlaywrightActionError(InvalidAction, actionType, selector, stepInfo)))
    ensures Classify(actionType, text) == Invalid ==> o.attempts == [] && o.calls == []
    ensures Classify(actionType, text) != Invalid ==> o == Execute(d, selector, actionType, text, stepInfo)
  {
    var kind := Classify(actionType, text);
    if kind == Invalid then
      Outcome(Raised(PlaywrightActionError(InvalidAction, actionType, selector, stepInfo)), [], [])
    else
      ValidActionOutcome(d, selector, actionType, text, stepInfo);
      Execute(d, selector, actionType, text, stepInfo)
  }
}

=== FILE: executor_properties.dfy ===
/**
 What the robust action executor promises its callers: no fallback for
 selectors that are not XPath, fallback selectors that trim leading segments
 one more at a time, a bounded number of attempts, the first success ending
 the call, an error for every total failure, and a clear whose outcome never
 matters. Two scenarios on the four-segment path `//a/b/c/d` close the module.
 */
module ExecutorProperties {
  import opened PyStrings
  import opened Selectors
  import opened ActionExecutor

  /** A selector that is not XPath gets one attempt and no fallback: when the
      attempt fails the "non-XPath selector" error is raised, and no driver
      call ever names another selector. */
  lemma NonXPathGetsNoFallback(d: Driver, selector: string, actionType: string, text: Option<string>,
                               stepInfo: string)
    requires !IsXPath(selector)
    ensures var o := Execute(d, selector, actionType, text, stepInfo);
            && o.attempts == [Attempt(0, selector, InitialTimeout)]
            && (o.status.Raised? <==> !AttemptOk(d, Classify(actionType, text), o.attempts[0]))
            && (o.status.Raised? ==> o.status.error.reason == NotXPathSelector)
            && (forall c :: c in o.calls ==> c.selector == selector)
  {
    var o := Execute(d, selector, actionType, text, stepInfo);
    ExecuteMatchesPlan(d, selector, actionType, text, stepInfo);
    assert o.calls == AttemptCalls(Classify(actionType, text), o.attempts[0]) + [];
  }

  /** Fallback attempt `j` tries `xpath=//` followed by the segments left
      after dropping the first `j`, with the fallback timeout. Cut into
      segments again, it gives exactly `segments[j:]`, so every attempt drops
      one more leading segment than the one before and keeps the rest in
      order. */
  lemma FallbackSelectorsAreTrimmed(d: Driver, selector: string, actionType: string, text: Option<string>,
                                    stepInfo: string)
    requires IsXPath(selector)
    ensures var o := Execute(d, selector, actionType, text, stepInfo);
            var segs := Segments(selector[|XPathPrefix|..]);
            forall j :: 1 <= j < |o.attempts| ==>
              && j < |segs|
              && o.attempts[j] == Attempt(j, Candidate(segs, j), FallbackTimeout)
              && IsXPath(o.attempts[j].selector)
              && Segments(o.attempts[j].selector[|XPathPrefix|..]) == segs[j..]
  {
    var o := Execute(d, selector, actionType, text, stepInfo);
    var segs := Segments(selector[|XPathPrefix|..]);
    ExecuteMatchesPlan(d, selector, actionType, text, stepInfo);
    forall j | 1 <= j < |o.attempts|
      ensures && j < |segs|
              && o.attempts[j] == Attempt(j, Candidate(segs, j), FallbackTimeout)
              && IsXPath(o.attempts[j].selector)
              && Segments(o.attempts[j].selector[|XPathPrefix|..]) == segs[j..]
    {
      PlannedFallback(selector, j);
      assert o.attempts[j] == Plan(selector)[j];
      CandidateRoundTrip(segs, j);
    }
  }

  /** At most `1 + min(50, len(segments) - 1)` attempts are made on an
      `xpath=` selector (just one when there is at most one segment), and
      exactly that many when the call raises; a selector that is not XPath
      gets one. */
  lemma AttemptBound(d: Driver, selector: string, actionType: string, text: Option<string>,
                     stepInfo: string)
    ensures var o := Execute(d, selector, actionType, text, stepInfo);
            && (!IsXPath(selector) ==> |o.attempts| == 1)
            && (IsXPath(selector) ==>
                  var n := |Segments(selector[|XPathPrefix|..])|;
                  var bound := 1 + (if n <= 1 then 0 else Min(MaxFallbacks, n - 1));
                  |o.attempts| <= bound && (o.status.Raised? ==> |o.attempts| == bound))
  {
    ExecuteMatchesPlan(d, selector, actionType, text, stepInfo);
    if IsXPath(selector) {
      XPathPlan(selector);
    }
  }

  /** The first planned attempt that goes through ends the call: it completes,
      and no later selector is tried. This holds for the original selector
      and for every fallback selector alike. */
  lemma FirstSuccessEndsTheCall(d: Driver, selector: string, actionType: string, text: Option<string>,
                                stepInfo: string, k: nat)
    requires k < |Plan(selector)|
    requires AttemptOk(d, Classify(actionType, text), Plan(selector)[k])
    requires forall j :: 0 <= j < k ==> !AttemptOk(d, Classify(actionType, text), Plan(selector)[j])
    ensures var o := Execute(d, selector, actionType, text, stepInfo);
            o.status == Completed && o.attempts == Plan(selector)[..k + 1]
  {
    ExecuteMatchesPlan(d, selector, actionType, text, stepInfo);
    StopsAtFirstSuccess(Execute(d, selector, actionType, text, stepInfo), d, Classify(actionType, text),
                        Plan(selector), PlaywrightActionError(ExhaustionReason(selector), actionType, selector, stepInfo), k);
  }

  /** A run through a plan whose attempt `k` is the first to succeed
      completes after exactly the attempts `0 .. k`. */
  lemma StopsAtFirstSuccess(o: Outcome, d: Driver, kind: ActionKind, plan: seq<Attempt>,
                            failure: PlaywrightActionError, k: nat)
    requires FollowsPlan(o, d, kind, plan, failure)
    requires k < |plan| && AttemptOk(d, kind, plan[k])
    requires forall j :: 0 <= j < k ==> !AttemptOk(d, kind, plan[j])
    ensures o.status == Completed && o.attempts == plan[..k + 1]
  {
    var n := |o.attempts|;
    assert o.attempts[n - 1] == plan[n - 1];
    assert n == k + 1;
  }

  /** When every planned attempt fails the call always raises a
      `PlaywrightActionError`: the "non-XPath" error for a selector that is
      not XPath, the "after 50 fallback attempts" error exactly when there
      are more than 50 segments, and the "failed unexpectedly" error after
      the loop otherwise. */
  lemma EveryFailureRaises(d: Driver, selector: string, actionType: string, text: Option<string>,
                           stepInfo: string)
    requires forall j :: 0 <= j < |Plan(selector)| ==> !AttemptOk(d, Classify(actionType, text), Plan(selector)[j])
    ensures var o := Execute(d, selector, actionType, text, stepInfo);
            && o.status.Raised?
            && o.attempts == Plan(selector)
            && o.status.error == PlaywrightActionError(ExhaustionReason(selector), actionType, selector, stepInfo)
            && (!IsXPath(selector) <==> o.status.error.reason == NotXPathSelector)
            && (IsXPath(selector) ==>
                  ((o.status.error.reason == AfterMaxFallbacks)
                     <==> (|Segments(selector[|XPathPrefix|..])| > MaxFallbacks)))
  {
    var o := Execute(d, selector, actionType, text, stepInfo);
    ExecuteMatchesPlan(d, selector, actionType, text, stepInfo);
    assert o.attempts[|o.attempts| - 1] == Plan(selector)[|o.attempts| - 1];
  }

  /** The "could not extract XPath" error and the "invalid action" error
      never leave the executor: the first is unreachable for `xpath=`
      selectors, the second is raised inside the `try` and caught there. */
  lemma OnlyReachableErrorsEscape(d: Driver, selector: string, actionType: string, text: Option<string>,
                                  stepInfo: string)
    ensures var o := Execute(d, selector, actionType, text, stepInfo);
            o.status.Raised? ==>
              && o.status.error.reason != XPathNotExtracted
              && o.status.error.reason != InvalidAction
              && o.status.error.selector == selector
  {
    ExecuteMatchesPlan(d, selector, actionType, text, stepInfo);
  }

  /** The fallback loop sees the browser only through each attempt's outcome:
      two drivers that agree on `AttemptOk` for every attempt run it the same. */
  lemma {:induction false} FallbacksIgnoreClear(d1: Driver, d2: Driver, kind: ActionKind, segs: seq<string>,
                                                i: nat, actionType: string, original: string, stepInfo: string)
    requires 1 <= i <= MaxFallbacks
    requires forall a: Attempt :: AttemptOk(d1, kind, a) == AttemptOk(d2, kind, a)
    ensures Fallbacks(d1, kind, segs, i, actionType, original, stepInfo)
         == Fallbacks(d2, kind, segs, i, actionType, original, stepInfo)
    decreases |segs| - i
  {
    if i < RangeEnd(segs) {
      var a := Attempt(i, Candidate(segs, i), FallbackTimeout);
      assert AttemptOk(d1, kind, a) == AttemptOk(d2, kind, a);
      if !AttemptOk(d1, kind, a) && i < MaxFallbacks {
        FallbacksIgnoreClear(d1, d2, kind, segs, i + 1, actionType, original, stepInfo);
      }
    }
  }

  /** A failing `clear` in a fill fallback is swallowed: two browsers that
      differ only in how their clear calls end lead to the very same outcome,
      attempts and driver calls. */
  lemma ClearOutcomeIsIgnored(d1: Driver, d2: Driver, selector: string, actionType: string,
                              text: Option<string>, stepInfo: string)
    requires forall c: Call :: !c.ClearCall? ==> d1(c) == d2(c)
    ensures Execute(d1, selector, actionType, text, stepInfo) == Execute(d2, selector, actionType, text, stepInfo)
  {
    var kind := Classify(actionType, text);
    var first := Attempt(0, selector, InitialTimeout);
    forall a: Attempt
      ensures AttemptOk(d1, kind, a) == AttemptOk(d2, kind, a)
    {
    }
    if IsXPath(selector) && !AttemptOk(d1, kind, first) {
      FallbackPath(d1, selector, actionType, text, stepInfo);
      FallbackPath(d2, selector, actionType, text, stepInfo);
      FallbacksIgnoreClear(d1, d2, kind, Segments(selector[|XPathPrefix|..]), 1, actionType, selector, stepInfo);
    }
  }

  /** Every driver call of every attempt is among the calls issued. */
  lemma {:induction false} CallsOfCovers(kind: ActionKind, attempts: seq<Attempt>)
    ensures forall j, c :: 0 <= j < |attempts| && c in AttemptCalls(kind, attempts[j]) ==> c in CallsOf(kind, attempts)
  {
    if |attempts| > 0 {
      CallsOfCovers(kind, attempts[1..]);
      forall j, c | 0 <= j < |attempts| && c in AttemptCalls(kind, attempts[j])
        ensures c in CallsOf(kind, attempts)
      {
        if j > 0 {
          assert attempts[j] == attempts[1..][j - 1];
        }
      }
    }
  }

  /** In a fill, every fallback selector tried is cleared and then filled:
      the fill is issued whatever became of the clear. */
  lemma FillFallbackClearsThenFills(d: Driver, selector: string, text: string, stepInfo: string)
    ensures var o := Execute(d, selector, "fill", Some(text), stepInfo);
            forall j :: 1 <= j < |o.attempts| ==>
              && ClearCall(o.attempts[j].selector, FallbackTimeout) in o.calls
              && FillCall(o.attempts[j].selector, text, FallbackTimeout) in o.calls
              && (AttemptOk(d, Fill(text), o.attempts[j]) <==> d(FillCall(o.attempts[j].selector, text, FallbackTimeout)))
  {
    var o := Execute(d, selector, "fill", Some(text), stepInfo);
    var kind := Fill(text);
    assert Classify("fill", Some(text)) == kind;
    ExecuteMatchesPlan(d, selector, "fill", Some(text), stepInfo);
    CallsOfCovers(kind, o.attempts);
    forall j | 1 <= j < |o.attempts|
      ensures && ClearCall(o.attempts[j].selector, FallbackTimeout) in o.calls
              && FillCall(o.attempts[j].selector, text, FallbackTimeout) in o.calls
              && (AttemptOk(d, kind, o.attempts[j]) <==> d(FillCall(o.attempts[j].selector, text, FallbackTimeout)))
    {
      PlannedFallback(selector, j);
      var a := o.attempts[j];
      assert a == Plan(selector)[j];
      assert AttemptCalls(kind, a) == [ClearCall(a.selector, FallbackTimeout), FillCall(a.selector, text, FallbackTimeout)];
      assert AttemptCalls(kind, a)[0] in AttemptCalls(kind, a) && AttemptCalls(kind, a)[1] in AttemptCalls(kind, a);
    }
  }

  /** The invalid-action quirk, as written: an action that is neither `click`
      nor `fill` with a text issues no driver call at all, yet on an `xpath=`
      selector with at least two segments it completes at the first fallback
      selector, because no action branch runs there and nothing raises. */
  lemma InvalidActionCompletesWithoutActing(d: Driver, selector: string, actionType: string,
                                            text: Option<string>, stepInfo: string)
    requires Classify(actionType, text) == Invalid
    ensures var o := Execute(d, selector, actionType, text, stepInfo);
            && o.calls == []
            && (o.status.Completed? <==> IsXPath(selector) && |Segments(selector[|XPathPrefix|..])| >= 2)
            && (o.status.Completed? ==> |o.attempts| == 2)
  {
    var o := Execute(d, selector, actionType, text, stepInfo);
    ExecuteMatchesPlan(d, selector, actionType, text, stepInfo);
    CallsOfNoAction(o.attempts);
    if IsXPath(selector) && |Segments(selector[|XPathPrefix|..])| >= 2 {
      assert |Plan(selector)| >= 2;
      PlannedFallback(selector, 1);
      SecondAttemptCompletes(d, selector, actionType, text, stepInfo);
    } else {
      assert |Plan(selector)| == 1;
    }
  }

  lemma {:induction false} CallsOfNoAction(attempts: seq<Attempt>)
    ensures CallsOf(Invalid, attempts) == []
  {
    if |attempts| > 0 {
      CallsOfNoAction(attempts[1..]);
    }
  }

  /** `xpath=//a/b/c/d` has the four segments `a, b, c, d`. */
  lemma FourSegments()
    ensures Segments("xpath=//a/b/c/d"[|XPathPrefix|..]) == ["a", "b", "c", "d"]
    ensures Candidate(["a", "b", "c", "d"], 1) == "xpath=//b/c/d"
  {
    var segs := ["a", "b", "c", "d"];
    assert Join(segs, "/") == "a/b/c/d" by {
      assert segs[1..] == ["b", "c", "d"];
      assert segs[1..][1..] == ["c", "d"];
      assert segs[1..][1..][1..] == ["d"];
    }
    assert Join(segs[1..], "/") == "b/c/d" by {
      assert segs[1..][1..] == ["c", "d"];
      assert segs[1..][1..][1..] == ["d"];
    }
    assert "xpath=//a/b/c/d"[|XPathPrefix|..] == "//" + "a/b/c/d";
    AnchoredSegments(segs);
  }

  /** When the original selector fails and fallback selector 1 works, the
      call completes after exactly those two attempts. */
  lemma SecondAttemptCompletes(d: Driver, selector: string, actionType: string, text: Option<string>,
                               stepInfo: string)
    requires 2 <= |Plan(selector)|
    requires !AttemptOk(d, Classify(actionType, text), Plan(selector)[0])
    requires AttemptOk(d, Classify(actionType, text), Plan(selector)[1])
    ensures var o := Execute(d, selector, actionType, text, stepInfo);
            o.status == Completed && o.attempts == [Plan(selector)[0], Plan(selector)[1]]
  {
    FirstSuccessEndsTheCall(d, selector, actionType, text, stepInfo, 1);
    assert Plan(selector)[..2] == [Plan(selector)[0], Plan(selector)[1]];
  }

  /** `//a/b/c/d`, first attempt fails, trim level 1 (`//b/c/d`) succeeds:
      two attempts, and the call completes. */
  lemma FirstTrimSucceedsScenario()
    ensures var d: Driver := (c: Call) => c == ClickCall("xpath=//b/c/d", FallbackTimeout);
            var o := Execute(d, "xpath=//a/b/c/d", "click", None, "Step 2, Action 2");
            && o.status == Completed
            && o.attempts == [Attempt(0, "xpath=//a/b/c/d", InitialTimeout),
                              Attempt(1, "xpath=//b/c/d", FallbackTimeout)]
  {
    var d: Driver := (c: Call) => c == ClickCall("xpath=//b/c/d", FallbackTimeout);
    var selector := "xpath=//a/b/c/d";
    FourSegments();
    assert IsXPath(selector) by {
      assert selector[..|XPathPrefix|] == XPathPrefix;
    }
    assert |Plan(selector)| == 4;
    PlannedFallback(selector, 1);
    SecondAttemptCompletes(d, selector, "click", None, "Step 2, Action 2");
  }

  /** `//a/b/c/d` where every attempt fails: one original attempt and three
      fallbacks, then the error raised after the loop. */
  lemma AllTrimsFailScenario()
    ensures var d: Driver := (c: Call) => false;
            var o := Execute(d, "xpath=//a/b/c/d", "click", None, "Step 2, Action 2");
            && o.status == Raised(PlaywrightActionError(FailedUnexpectedly, "click", "xpath=//a/b/c/d", "Step 2, Action 2"))
            && |o.attempts| == 4
  {
    var d: Driver := (c: Call) => false;
    var selector := "xpath=//a/b/c/d";
    FourSegments();
    assert IsXPath(selector) by {
      assert selector[..|XPathPrefix|] == XPathPrefix;
    }
    XPathPlan(selector);
    EveryFailureRaises(d, selector, "click", None, "Step 2, Action 2");
  }

  /** The quirk on a concrete call: `fill` with `text=None` on
      `xpath=//a/b`, whatever the browser does, completes having issued no
      driver call. */
  lemma FillWithoutTextCompletesWithoutActing(d: Driver)
    ensures var o := Execute(d, "xpath=//a/b", "fill", None, "");
            o.status == Completed && o.calls == []
  {
    var selector := "xpath=//a/b";
    assert IsXPath(selector) by {
      assert selector[..|XPathPrefix|] == XPathPrefix;
    }
    assert Join(["a", "b"], "/") == "a/b" by {
      assert ["a", "b"][1..] == ["b"];
    }
    assert selector[|XPathPrefix|..] == "//" + "a/b";
    AnchoredSegments(["a", "b"]);
    InvalidActionCompletesWithoutActing(d, selector, "fill", None, "");
  }
}

=== FILE: py_strings.dfy ===
/**
 The handful of Python `str` operations the replay script relies on, with the
 semantics of CPython: `startswith`, `split(sep)`, `split(c, 1)`, `join` and
 `replace`. Python strings are modelled as `seq<char>` and `None` as `Option`.
 */
module PyStrings {

  /** Python's `None` or a value. */
  datatype Option<+T> = None | Some(value: T)

  /** `s.startswith(prefix)`. */
  predicate StartsWith(s: string, prefix: string) {
    |prefix| <= |s| && s[..|prefix|] == prefix
  }

  /** `pat` occurs in `s` at position `k`. */
  predicate OccursAt(pat: string, s: string, k: nat) {
    k + |pat| <= |s| && s[k..k + |pat|] == pat
  }

  /** `pat in s`. */
  predicate Occurs(pat: string, s: string) {
    exists k: nat | k <= |s| :: OccursAt(pat, s, k)
  }

  /** An occurrence in the tail of `s` is an occurrence in `s`, one position later. */
  lemma OccursInTail(pat: string, s: string)
    requires |s| > 0
    ensures Occurs(pat, s[1..]) ==> Occurs(pat, s)
  {
    if Occurs(pat, s[1..]) {
      var t := s[1..];
      var k: nat :| k <= |t| && OccursAt(pat, t, k);
      forall j | 0 <= j < |pat| ensures s[k + 1..k + 1 + |pat|][j] == pat[j] {
        assert t[k..k + |pat|][j] == pat[j];
      }
      assert OccursAt(pat, s, k + 1);
    }
  }

  /** Position of the first `c` in `s` (`s.index(c)`). */
  function IndexOf(s: string, c: char): (k: nat)
    requires c in s
    ensures k < |s| && s[k] == c
    ensures c !in s[..k]
  {
    if s[0] == c then 0
    else
      assert c in s[1..] by {
        var i :| 0 <= i < |s| && s[i] == c;
        assert s[1..][i - 1] == c;
      }
      var k := IndexOf(s[1..], c);
      assert s[..k + 1] == [s[0]] + s[1..][..k];
      k + 1
  }

  /** `s.split(c, 1)`: the text before the first `c` and the text after it,
      or `[s]` when `c` does not occur. */
  function SplitOnce(s: string, c: char): (parts: seq<string>)
    ensures c !in s ==> parts == [s]
    ensures c in s ==> |parts| == 2 && parts[0] + [c] + parts[1] == s && c !in parts[0]
  {
    if c in s then
      var k := IndexOf(s, c);
      assert s == s[..k] + [c] + s[k + 1..];
      [s[..k], s[k + 1..]]
    else [s]
  }

  /** `s.split(sep)` for a non-empty separator: the pieces between the
      leftmost non-overlapping occurrences of `sep`, scanning left to right.
      There is always at least one piece. */
  function Split(s: string, sep: string): (parts: seq<string>)
    requires sep != []
    ensures |parts| >= 1
    decreases |s|
  {
    if |s| < |sep| then [s]
    else if s[..|sep|] == sep then [[]] + Split(s[|sep|..], sep)
    else
      var rest := Split(s[1..], sep);
      [[s[0]] + rest[0]] + rest[1..]
  }

  /** `sep.join(parts)`; the empty list joins to the empty string. */
  function Join(parts: seq<string>, sep: string): string {
    if |parts| == 0 then []
    else if |parts| == 1 then parts[0]
    else parts[0] + sep + Join(parts[1..], sep)
  }

  /** `s.replace(pat, rep)` for a non-empty pattern: every leftmost
      non-overlapping occurrence of `pat` is replaced, scanning left to right.
      A string in which `pat` does not occur comes back unchanged. */
  function ReplaceAll(s: string, pat: string, rep: string): (r: string)
    requires pat != []
    ensures !Occurs(pat, s) ==> r == s
    decreases |s|
  {
    if |s| < |pat| then s
    else if s[..|pat|] == pat then
      assert OccursAt(pat, s, 0);
      rep + ReplaceAll(s[|pat|..], pat, rep)
    else
      OccursInTail(pat, s);
      [s[0]] + ReplaceAll(s[1..], pat, rep)
  }

  /** The non-empty strings of `parts`, in their order
      (`[p for p in parts if p]`). */
  function NonEmpty(parts: seq<string>): (r: seq<string>)
    ensures |r| <= |parts|
    ensures forall k :: 0 <= k < |r| ==> r[k] != [] && r[k] in parts
    ensures forall k :: 0 <= k < |parts| && parts[k] != [] ==> parts[k] in r
  {
    if |parts| == 0 then []
    else if parts[0] == [] then NonEmpty(parts[1..])
    else [parts[0]] + NonEmpty(parts[1..])
  }

  /** Filtering a list with no empty string keeps it whole. */
  lemma {:induction false} NonEmptyKeepsAll(parts: seq<string>)
    requires forall k :: 0 <= k < |parts| ==> parts[k] != []
    ensures NonEmpty(parts) == parts
  {
    if |parts| > 0 {
      NonEmptyKeepsAll(parts[1..]);
    }
  }

  /** Prepending `c` to the first piece prepends `c` to the joined string. */
  lemma JoinConsHead(c: char, parts: seq<string>, sep: string)
    requires |parts| >= 1
    ensures Join([[c] + parts[0]] + parts[1..], sep) == [c] + Join(parts, sep)
  {
    var q := [[c] + parts[0]] + parts[1..];
    assert q[1..] == parts[1..];
  }

  /** Python's `sep.join(s.split(sep)) == s`: splitting loses nothing. */
  lemma {:induction false} JoinSplit(s: string, sep: string)
    requires sep != []
    ensures Join(Split(s, sep), sep) == s
    decreases |s|
  {
    if |s| < |sep| {
      assert Split(s, sep) == [s];
    } else if s[..|sep|] == sep {
      var t := s[|sep|..];
      var rest := Split(t, sep);
      assert Split(s, sep) == [[]] + rest;
      JoinSplit(t, sep);
      JoinFirst([], rest, sep);
      assert s == sep + t;
    } else {
      var t := s[1..];
      var rest := Split(t, sep);
      assert Split(s, sep) == [[s[0]] + rest[0]] + rest[1..];
      JoinSplit(t, sep);
      JoinConsHead(s[0], rest, sep);
      assert s == [s[0]] + t;
    }
  }

  /** Python's `s.replace(pat, rep) == rep.join(s.split(pat))`: replacing is
      splitting at the pattern and gluing the pieces back with `rep`. */
  lemma {:induction false} ReplaceAllIsJoinOfSplit(s: string, pat: string, rep: string)
    requires pat != []
    ensures ReplaceAll(s, pat, rep) == Join(Split(s, pat), rep)
    decreases |s|
  {
    if |s| < |pat| {
    } else if s[..|pat|] == pat {
      var rest := Split(s[|pat|..], pat);
      ReplaceAllIsJoinOfSplit(s[|pat|..], pat, rep);
      assert ReplaceAll(s, pat, rep) == rep + ReplaceAll(s[|pat|..], pat, rep);
      assert Split(s, pat) == [[]] + rest;
      assert ([[]] + rest)[1..] == rest;
      assert Join([[]] + rest, rep) == [] + rep + Join(rest, rep);
    } else {
      var rest := Split(s[1..], pat);
      ReplaceAllIsJoinOfSplit(s[1..], pat, rep);
      assert ReplaceAll(s, pat, rep) == [s[0]] + ReplaceAll(s[1..], pat, rep);
      assert Split(s, pat) == [[s[0]] + rest[0]] + rest[1..];
      JoinConsHead(s[0], rest, rep);
    }
  }

  /** `sep` does not occur in `[c] + g` when it does not occur in `g` and
      `[c] + g` does not start with it. */
  lemma NoOccurrenceInCons(sep: string, c: char, g: string)
    requires !Occurs(sep, g)
    requires |sep| <= |g| + 1 ==> ([c] + g)[..|sep|] != sep
    ensures !Occurs(sep, [c] + g)
  {
    var h := [c] + g;
    forall k: nat | 0 < k <= |h|
      ensures !OccursAt(sep, h, k)
    {
      if OccursAt(sep, h, k) {
        assert h[k..k + |sep|] == g[k - 1..k - 1 + |sep|];
        assert OccursAt(sep, g, k - 1);
      }
    }
  }

  /** The first piece of `s.split(sep)` is the text before an occurrence of
      `sep`: a prefix of `s` in which `sep` does not occur. When it is the only
      piece it is all of `s`; otherwise `sep` follows it in `s`, and the other
      pieces are the split of the text after that occurrence.
      `SplitFirstCutLeftmost` adds that no occurrence starts earlier. */
  lemma {:induction false} SplitFirstCut(s: string, sep: string)
    requires sep != []
    ensures var parts := Split(s, sep);
            var h := parts[0];
            && |h| <= |s| && h == s[..|h|] && !Occurs(sep, h)
            && (|parts| == 1 ==> h == s)
            && (|parts| > 1 ==> OccursAt(sep, s, |h|) && parts[1..] == Split(s[|h| + |sep|..], sep))
    decreases |s|
  {
    var parts := Split(s, sep);
    if |s| < |sep| {
      assert parts == [s];
    } else if s[..|sep|] == sep {
      assert parts == [[]] + Split(s[|sep|..], sep);
      assert !Occurs(sep, []);
    } else {
      var rest := Split(s[1..], sep);
      SplitFirstCut(s[1..], sep);
      assert parts == [[s[0]] + rest[0]] + rest[1..];
      ConsCut(s, sep, rest);
    }
  }

  /** The step of `SplitFirstCut` for a text that does not start with `sep`:
      given the cut of the tail `s[1..]` into `rest`, the first piece
      `s[0] + rest[0]` is a cut of `s` with the same properties. */
  lemma ConsCut(s: string, sep: string, rest: seq<string>)
    requires sep != [] && |s| >= |sep| && s[..|sep|] != sep && |rest| >= 1
    requires var g := rest[0];
             && |g| <= |s[1..]| && g == s[1..][..|g|] && !Occurs(sep, g)
             && (|rest| == 1 ==> g == s[1..])
             && (|rest| > 1 ==> OccursAt(sep, s[1..], |g|) && rest[1..] == Split(s[1..][|g| + |sep|..], sep))
    ensures var h := [s[0]] + rest[0];
            && |h| <= |s| && h == s[..|h|] && !Occurs(sep, h)
            && (|rest| == 1 ==> h == s)
            && (|rest| > 1 ==> OccursAt(sep, s, |h|) && rest[1..] == Split(s[|h| + |sep|..], sep))
  {
    var g := rest[0];
    ConsPrefix(s, sep, g);
    if |rest| > 1 {
      ConsTail(s, sep, g);
    }
  }

  /** Prepending `s[0]` to a prefix of `s[1..]` without `sep` gives a prefix
      of `s` without `sep`, when `s` does not start with `sep`. */
  lemma ConsPrefix(s: string, sep: string, g: string)
    requires sep != [] && |s| >= |sep| && s[..|sep|] != sep
    requires |g| < |s| && g == s[1..][..|g|] && !Occurs(sep, g)
    ensures [s[0]] + g == s[..|g| + 1] && !Occurs(sep, [s[0]] + g)
  {
    var h := [s[0]] + g;
    assert h == s[..|h|];
    assert |sep| <= |h| ==> h[..|sep|] == s[..|sep|];
    NoOccurrenceInCons(sep, s[0], g);
  }

  /** An occurrence of `sep` in `s[1..]` is one in `s`, one position later,
      followed by the same text. */
  lemma ConsTail(s: string, sep: string, g: string)
    requires |g| < |s| && OccursAt(sep, s[1..], |g|)
    ensures OccursAt(sep, s, |g| + 1) && s[1..][|g| + |sep|..] == s[|g| + 1 + |sep|..]
  {
    assert s[1..][|g|..|g| + |sep|] == s[|g| + 1..|g| + 1 + |sep|];
  }

  /** The cut is at the leftmost occurrence: no occurrence of `sep` in `s`
      starts inside the first piece of `s.split(sep)`, not even one that runs
      past its end. */
  lemma {:induction false} SplitFirstCutLeftmost(s: string, sep: string)
    requires sep != []
    ensures forall k :: 0 <= k < |Split(s, sep)[0]| ==> !OccursAt(sep, s, k)
    decreases |s|
  {
    if |s| < |sep| {
      assert Split(s, sep) == [s];
    } else if s[..|sep|] == sep {
      assert Split(s, sep)[0] == [];
    } else {
      var rest := Split(s[1..], sep);
      SplitFirstCutLeftmost(s[1..], sep);
      assert Split(s, sep)[0] == [s[0]] + rest[0];
      forall k | 0 <= k < |Split(s, sep)[0]|
        ensures !OccursAt(sep, s, k)
      {
        if k == 0 {
          assert s[0..|sep|] == s[..|sep|];
        } else if k + |sep| <= |s| {
          assert s[1..][k - 1..k - 1 + |sep|] == s[k..k + |sep|];
          assert !OccursAt(sep, s[1..], k - 1);
        }
      }
    }
  }

  /** `sep.join([h] + rest)` for a non-empty `rest`. */
  lemma JoinFirst(h: string, rest: seq<string>, sep: string)
    requires |rest| >= 1
    ensures Join([h] + rest, sep) == h + sep + Join(rest, sep)
  {
    assert ([h] + rest)[1..] == rest;
  }

  /** No piece of `s.split(pat)` contains `pat`: every occurrence of the
      pattern is a cut. */
  lemma {:induction false} SplitPiecesAvoidPattern(s: string, pat: string)
    requires pat != []
    ensures forall k :: 0 <= k < |Split(s, pat)| ==> !Occurs(pat, Split(s, pat)[k])
    decreases |s|
  {
    var parts := Split(s, pat);
    SplitFirstCut(s, pat);
    if |parts| > 1 {
      var h := parts[0];
      SplitPiecesAvoidPattern(s[|h| + |pat|..], pat);
      forall k | 1 <= k < |parts|
        ensures !Occurs(pat, parts[k])
      {
        assert parts[k] == parts[1..][k - 1];
      }
    }
  }

  /** `s.replace(pat, rep)` replaces the leftmost occurrence of `pat` and
      goes on with the text after it; a string without `pat` is unchanged. */
  lemma ReplaceAllAtLeftmost(s: string, pat: string, rep: string)
    requires pat != []
    ensures !Occurs(pat, s) ==> ReplaceAll(s, pat, rep) == s
    ensures Occurs(pat, s) ==>
              var h := Split(s, pat)[0];
              && |h| <= |s| && h == s[..|h|] && OccursAt(pat, s, |h|)
              && (forall k :: 0 <= k < |h| ==> !OccursAt(pat, s, k))
              && ReplaceAll(s, pat, rep) == h + rep + ReplaceAll(s[|h| + |pat|..], pat, rep)
  {
    var parts := Split(s, pat);
    var h := parts[0];
    SplitFirstCut(s, pat);
    SplitFirstCutLeftmost(s, pat);
    if Occurs(pat, s) {
      ReplaceAllIsJoinOfSplit(s, pat, rep);
      ReplaceAllIsJoinOfSplit(s[|h| + |pat|..], pat, rep);
      assert parts == [h] + parts[1..];
      JoinFirst(h, parts[1..], rep);
    }
  }

  /** No piece of `s.split(c)` contains the separator `c`. */
  lemma {:induction false} SplitPiecesAvoidSeparator(s: string, c: char)
    ensures forall k :: 0 <= k < |Split(s, [c])| ==> c !in Split(s, [c])[k]
    decreases |s|
  {
    if |s| < 1 {
    } else if s[..1] == [c] {
      SplitPiecesAvoidSeparator(s[1..], c);
      var rest := Split(s[1..], [c]);
      assert Split(s, [c]) == [[]] + rest;
    } else {
      SplitPiecesAvoidSeparator(s[1..], c);
      var rest := Split(s[1..], [c]);
      assert s[0] != c by { assert s[..1] == [s[0]]; }
      assert Split(s, [c]) == [[s[0]] + rest[0]] + rest[1..];
      assert c !in [s[0]] + rest[0];
    }
  }

  /** A string without the separator splits into itself alone. */
  lemma {:induction false} SplitWithoutSeparator(x: string, c: char)
    requires c !in x
    ensures Split(x, [c]) == [x]
    decreases |x|
  {
    if |x| >= 1 {
      assert x[..1] == [x[0]];
      SplitWithoutSeparator(x[1..], c);
      assert x == [x[0]] + x[1..];
    }
  }

  /** Splitting at the first separator. */
  lemma {:induction false} SplitAtSeparator(x: string, c: char, y: string)
    requires c !in x
    ensures Split(x + [c] + y, [c]) == [x] + Split(y, [c])
    decreases |x|
  {
    var s := x + [c] + y;
    if |x| == 0 {
      assert s[..1] == [c];
      assert s[1..] == y;
    } else {
      assert s[..1] == [x[0]];
      assert s[1..] == x[1..] + [c] + y;
      SplitAtSeparator(x[1..], c, y);
      assert x == [x[0]] + x[1..];
    }
  }

  /** Python's `sep.join(parts).split(sep) == parts` for a one-character
      separator that occurs in no part: joining loses nothing. */
  lemma {:induction false} SplitJoin(parts: seq<string>, c: char)
    requires |parts| >= 1
    requires forall k :: 0 <= k < |parts| ==> c !in parts[k]
    ensures Split(Join(parts, [c]), [c]) == parts
  {
    if |parts| == 1 {
      SplitWithoutSeparator(parts[0], c);
    } else {
      SplitJoin(parts[1..], c);
      SplitAtSeparator(parts[0], c, Join(parts[1..], [c]));
      assert parts == [parts[0]] + parts[1..];
    }
  }
}

=== FILE: selectors.dfy ===
/**
 The selector arithmetic of the XPath fallback: how an `xpath=` selector is
 cut into its path segments, and how the shortened selectors that the
 fallback tries are built from them (`xpath=//` followed by the segments
 left after dropping the first `i`).
 */
module Selectors {
  import opened PyStrings

  /** The prefix that marks a selector as XPath, and the only kind that gets
      a fallback. */
  const XPathPrefix: string := "xpath="

  /** The head of every fallback selector: XPath, matching anywhere below the root. */
  const FallbackAnchor: string := "xpath=//"

  predicate IsXPath(selector: string) {
    StartsWith(selector, XPathPrefix)
  }

  /** A segment is a non-empty step of an XPath that holds no `/`. */
  predicate IsSegment(seg: string) {
    seg != [] && '/' !in seg
  }

  /** `[seg for seg in xpath.split('/') if seg]`. Every segment it yields is
      non-empty and free of `/`. Note that a `/` inside a predicate such as
      `a[@href='x/y']` is cut like any other. */
  function Segments(xpath: string): (segs: seq<string>)
    ensures forall k :: 0 <= k < |segs| ==> IsSegment(segs[k])
  {
    SplitPiecesAvoidSeparator(xpath, '/');
    NonEmpty(Split(xpath, "/"))
  }

  /** Fallback selector `i`: `f'xpath=//{"/".join(segments[i:])}'`. */
  function Candidate(segs: seq<string>, i: nat): string
    requires i <= |segs|
  {
    FallbackAnchor + Join(segs[i..], "/")
  }

  /** For an `xpath=` selector `selector.split('=', 1)` always has two parts,
      and the second is the text after the prefix. The "could not extract"
      error of the executor is therefore never raised. */
  lemma XPathExtraction(selector: string)
    requires IsXPath(selector)
    ensures SplitOnce(selector, '=') == ["xpath", selector[|XPathPrefix|..]]
  {
    assert selector[..6] == XPathPrefix;
    assert selector[5] == '=';
    var parts := SplitOnce(selector, '=');
    assert |parts| == 2 && parts[0] + ['='] + parts[1] == selector && '=' !in parts[0];
    // the first '=' of the selector is the one that ends the prefix
    assert |parts[0]| == 5;
    assert parts[0] == selector[..5];
    assert selector[..5] == XPathPrefix[..5] == "xpath";
    assert parts[1] == selector[6..];
    assert parts == [parts[0], parts[1]];
  }

  lemma DropEmptyHead(parts: seq<string>)
    ensures NonEmpty([[]] + parts) == NonEmpty(parts)
  {
    assert ([[]] + parts)[1..] == parts;
  }

  /** The segments of `//s1/s2/.../sn` are exactly `s1, ..., sn`, in order. */
  lemma {:induction false} AnchoredSegments(segs: seq<string>)
    requires forall k :: 0 <= k < |segs| ==> IsSegment(segs[k])
    ensures Segments("//" + Join(segs, "/")) == segs
  {
    var j := Join(segs, "/");
    SplitAtSeparator([], '/', "/" + j);
    SplitAtSeparator([], '/', j);
    assert [] + ['/'] + ("/" + j) == "//" + j;
    assert [] + ['/'] + j == "/" + j;
    var tail := Split(j, "/");
    assert Split("//" + j, "/") == [[]] + ([[]] + tail);
    DropEmptyHead([[]] + tail);
    DropEmptyHead(tail);
    if |segs| == 0 {
      assert tail == [[]];
      DropEmptyHead([]);
    } else {
      SplitJoin(segs, '/');
      NonEmptyKeepsAll(segs);
    }
  }

  /** Fallback selector `i` is again an XPath selector, and cutting it into
      segments gives back exactly `segs[i:]`: trimming drops leading
      segments and never reorders or alters the remaining ones. */
  lemma CandidateRoundTrip(segs: seq<string>, i: nat)
    requires i <= |segs|
    requires forall k :: 0 <= k < |segs| ==> IsSegment(segs[k])
    ensures IsXPath(Candidate(segs, i))
    ensures Segments(Candidate(segs, i)[|XPathPrefix|..]) == segs[i..]
  {
    var c := Candidate(segs, i);
    assert c[..|XPathPrefix|] == XPathPrefix;
    assert c[|XPathPrefix|..] == "//" + Join(segs[i..], "/");
    AnchoredSegments(segs[i..]);
  }

  /** Trimming is strictly increasing: fallback selector `j` has `j - i`
      segments fewer than fallback selector `i < j`, and they are the tail
      of its segments. */
  lemma TrimmingOrder(segs: seq<string>, i: nat, j: nat)
    requires i < j <= |segs|
    requires forall k :: 0 <= k < |segs| ==> IsSegment(segs[k])
    ensures var early := Segments(Candidate(segs, i)[|XPathPrefix|..]);
            var late := Segments(Candidate(segs, j)[|XPathPrefix|..]);
            |early| == |late| + (j - i) && late == early[j - i..]
  {
    CandidateRoundTrip(segs, i);
    CandidateRoundTrip(segs, j);
    assert segs[j..] == segs[i..][j - i..];
  }
}

=== FILE: sensitive_data.dfy ===
/**
 Placeholder substitution of the replay script (`replace_sensitive_data`):
 every literal `<secret>KEY</secret>` in a text is replaced by the string form
 of the value the sensitive-data map gives `KEY`, or by the empty string when
 that value is `None`. The map's entries are applied one after another, in the
 dict's insertion order, each with Python's `str.replace`.
 */
module SensitiveData {
  import opened PyStrings

  /** One `placeholder: value` entry of the sensitive-data dict. `value` is
      the entry's `str(value)`, or `None` for Python's `None`. */
  datatype Entry = Entry(placeholder: string, value: Option<string>)

  /** The dict itself, as its entries in iteration (insertion) order. A
      sequence may repeat a placeholder, which a dict cannot; the results here
      hold for any sequence, and describe a dict when its placeholders are
      distinct. */
  type SensitiveMap = seq<Entry>

  /** The argument `text`: a Python `str`, or any other object, which is
      identified only by an opaque handle. */
  datatype Text = Str(s: string) | NonStr(handle: nat)

  /** The marker `<secret>KEY</secret>` for placeholder `KEY`. */
  function Tag(placeholder: string): string {
    "<secret>" + placeholder + "</secret>"
  }

  /** What a marker is replaced with: `str(value)`, or `''` for `None`. */
  function Replacement(value: Option<string>): string {
    match value
    case Some(v) => v
    case None => ""
  }

  /** The tags of the map's placeholders do not occur in `s`. */
  predicate NoTagIn(s: string, m: SensitiveMap) {
    forall k :: 0 <= k < |m| ==> !Occurs(Tag(m[k].placeholder), s)
  }

  /** The loop over the map's entries: the text each entry's replacement
      leaves is what the next entry works on. A text holding no tag of any
      entry comes back unchanged. */
  function ApplyEntries(s: string, m: SensitiveMap): (r: string)
    ensures NoTagIn(s, m) ==> r == s
    decreases |m|
  {
    if |m| == 0 then s
    else ApplyEntries(ReplaceAll(s, Tag(m[0].placeholder), Replacement(m[0].value)), m[1..])
  }

  /** `replace_sensitive_data(text, sensitive_map)`. A non-`str` argument is
      returned as it is; a `str` stays a `str`. */
  function ReplaceSensitiveData(text: Text, m: SensitiveMap): (r: Text)
    ensures text.NonStr? ==> r == text
    ensures text.Str? <==> r.Str?
    ensures text.Str? && NoTagIn(text.s, m) ==> r == text
  {
    match text
    case NonStr(_) => text
    case Str(s) => Str(ApplyEntries(s, m))
  }

  /** An empty map changes nothing. */
  lemma EmptyMapChangesNothing(text: Text)
    ensures ReplaceSensitiveData(text, []) == text
  {
  }

  /** The entries are applied one after another: substituting with `m1 + m2`
      is substituting with `m1` and then with `m2`. For dicts this is the
      merge `{**m1, **m2}` when their placeholders are disjoint. */
  lemma {:induction false} SubstitutionInMapOrder(s: string, m1: SensitiveMap, m2: SensitiveMap)
    ensures ReplaceSensitiveData(Str(s), m1 + m2)
         == ReplaceSensitiveData(ReplaceSensitiveData(Str(s), m1), m2)
  {
    ApplyEntriesAppend(s, m1, m2);
  }

  lemma {:induction false} ApplyEntriesAppend(s: string, m1: SensitiveMap, m2: SensitiveMap)
    ensures ApplyEntries(s, m1 + m2) == ApplyEntries(ApplyEntries(s, m1), m2)
    decreases |m1|
  {
    if |m1| > 0 {
      assert (m1 + m2)[0] == m1[0];
      assert (m1 + m2)[1..] == m1[1..] + m2;
      ApplyEntriesAppend(ReplaceAll(s, Tag(m1[0].placeholder), Replacement(m1[0].value)), m1[1..], m2);
    } else {
      assert m1 + m2 == m2;
    }
  }

  /** One entry cuts the text at every occurrence of its tag and glues the
      pieces back together with its replacement value
      (`value.join(text.split(tag))`). The pieces rebuild the text when glued
      with the tag, and no piece holds the tag: every occurrence is replaced,
      and nothing else is touched. */
  lemma SubstitutionOfOneEntry(s: string, e: Entry)
    ensures var pieces := Split(s, Tag(e.placeholder));
            && ReplaceSensitiveData(Str(s), [e]) == Str(Join(pieces, Replacement(e.value)))
            && Join(pieces, Tag(e.placeholder)) == s
            && (forall k :: 0 <= k < |pieces| ==> !Occurs(Tag(e.placeholder), pieces[k]))
  {
    ReplaceAllIsJoinOfSplit(s, Tag(e.placeholder), Replacement(e.value));
    JoinSplit(s, Tag(e.placeholder));
    SplitPiecesAvoidPattern(s, Tag(e.placeholder));
    assert ApplyEntries(s, [e])
        == ApplyEntries(ReplaceAll(s, Tag(e.placeholder), Replacement(e.value)), []);
  }

  /** A text that is exactly one tag becomes that entry's replacement. */
  lemma LoneTagIsReplaced(placeholder: string, value: Option<string>)
    ensures ReplaceSensitiveData(Str(Tag(placeholder)), [Entry(placeholder, value)])
         == Str(Replacement(value))
  {
    var t := Tag(placeholder);
    assert t[..|t|] == t;
    assert t[|t|..] == [];
    assert ReplaceAll(t, t, Replacement(value)) == Replacement(value) + ReplaceAll([], t, Replacement(value));
    assert ApplyEntries(t, [Entry(placeholder, value)])
        == ApplyEntries(ReplaceAll(t, t, Replacement(value)), []);
  }

  /** A search text kept as a placeholder: `<secret>CITY</secret>` with
      `{CITY: "Ottawa"}` resolves to `Ottawa`. */
  lemma CityPlaceholder()
    ensures ReplaceSensitiveData(Str("<secret>CITY</secret>"), [Entry("CITY", Some("Ottawa"))])
         == Str("Ottawa")
  {
    LoneTagIsReplaced("CITY", Some("Ottawa"));
  }

  /** Substitution is not idempotent: with `{B: "x", A: "<secret>B</secret>"}`
      one pass over `<secret>A</secret>` leaves the tag `<secret>B</secret>`,
      which a second pass replaces. */
  lemma SubstitutionIsNotIdempotent()
    ensures var m := [Entry("B", Some("x")), Entry("A", Some(Tag("B")))];
            var once := ReplaceSensitiveData(Str(Tag("A")), m);
            once == Str(Tag("B")) && ReplaceSensitiveData(once, m) == Str("x")
  {
    var eB := Entry("B", Some("x"));
    var eA := Entry("A", Some(Tag("B")));
    var m := [eB, eA];
    assert m == [eB] + [eA];
    // first pass: the B tag does not occur in the A tag, then A becomes the B tag
    assert !Occurs(Tag("B"), Tag("A")) by {
      forall k: nat | k <= |Tag("A")| ensures !OccursAt(Tag("B"), Tag("A"), k) {
        if k == 0 {
          assert Tag("A")[..|Tag("B")|][8] != Tag("B")[8];
        }
      }
    }
    assert ApplyEntries(Tag("A"), [eB]) == Tag("A") by {
      assert NoTagIn(Tag("A"), [eB]);
    }
    LoneTagIsReplaced("A", Some(Tag("B")));
    ApplyEntriesAppend(Tag("A"), [eB], [eA]);
    // second pass: the B tag becomes x, and the A tag no longer occurs
    LoneTagIsReplaced("B", Some("x"));
    assert !Occurs(Tag("A"), "x");
    assert ApplyEntries("x", [eA]) == "x" by {
      assert NoTagIn("x", [eA]);
    }
    ApplyEntriesAppend(Tag("B"), [eB], [eA]);
  }

  /** A tag that a replacement value brings in is resolved in the same pass
      when its entry comes later: with `{A: "<secret>B</secret>", B: "x"}`
      one pass over `<secret>A</secret>` gives `x`, and a second pass leaves
      it unchanged. */
  lemma LaterEntryIsResolvedInOnePass()
    ensures var m := [Entry("A", Some(Tag("B"))), Entry("B", Some("x"))];
            var once := ReplaceSensitiveData(Str(Tag("A")), m);
            once == Str("x") && ReplaceSensitiveData(once, m) == once
  {
    var eA := Entry("A", Some(Tag("B")));
    var eB := Entry("B", Some("x"));
    var m := [eA, eB];
    assert m == [eA] + [eB];
    // first pass: A becomes the B tag, which the later B entry turns into x
    LoneTagIsReplaced("A", Some(Tag("B")));
    LoneTagIsReplaced("B", Some("x"));
    ApplyEntriesAppend(Tag("A"), [eA], [eB]);
    // second pass: neither tag occurs in x
    assert !Occurs(Tag("A"), "x");
    assert !Occurs(Tag("B"), "x");
    assert NoTagIn("x", m);
  }
}
